=== FILE: README.md ===
# JSON write-path type hints of the data-contract serializer

A Dafny model of `XmlObjectSerializerWriteContextComplexJson`, the context
that `DataContractJsonSerializer` drives while it writes one object graph. For
every value it compares the contract of the value's runtime type with the
contract of the slot the value is written through, and then:

- decides whether a `__type` hint is needed and writes it as
  `name:compactedNamespace`, compacting the default data-contract namespace
  `http://schemas.datacontract.org/2004/07/` to `#`;
- checks a collection written through a slot of another type, one that is
  neither an array nor a collection interface, against the scoped known-type
  maps, pushing the collection's own known types for the check;
- copies a dictionary written through such a slot into a
  `Dictionary<object, object?>` and re-dispatches it under the `IEnumerable`
  contract;
- refuses four things: a diverging non-class value under a `System.Enum` slot,
  an XML or collection contract under an incompatible interface slot, an
  unknown collection type, and an `ISerializable` bag that reports another
  type name;
- re-resolves `KeyValue<,>` item contracts and finds a contract by qualified
  name along the chain of nested collection item contracts.

Modules:

- `DataContracts`: types as records of reflection facts, contracts as the
  closed union Primitive / Enum / Class / Collection / Xml (an `ISerializable`
  type has a class contract, as in the source), values and errors.
- `NamespaceCompaction`: the namespace compaction and the hint text, with
  their reading-side inverses and round-trip lemmas.
- `WritePath`: each operation of the context as a function from the state
  before the call (per-call flag, scope stack, output log) to the state after
  it, and the lemmas about whole writes.
- `ItemContracts`: the two item-contract lookups.
- `WriteContext`: the class `WriteContextComplexJson`, whose methods update
  the flag, the stack and the log in place and are proved to end in the state
  the `WritePath` function gives.

Exceptions are `Fail` outcomes. A failed call leaves the state as it was at
the throw.

## Model

| member | source | states |
|---|---|---|
| NamespaceCompaction.TruncateDefaultDataContractNamespace | src/libraries/System.Private.DataContractSerialization/src/System/Runtime/Serialization/Json/XmlObjectSerializerWriteContextComplexJson.cs:73-92 | Empty stays empty. A leading `#` or `\` gets one more `\` in front. A namespace under the base namespace becomes `#` plus the remainder. Anything else passes unchanged. The three output forms are told apart by their first character. |
| NamespaceCompaction.ExpandTruncate | src/libraries/System.Private.DataContractSerialization/src/System/Runtime/Serialization/Json/XmlObjectSerializerWriteContextComplexJson.cs:73-92 | Expanding the compacted namespace gives back the original namespace, for every namespace. |
| NamespaceCompaction.TruncateInjective | src/libraries/System.Private.DataContractSerialization/src/System/Runtime/Serialization/Json/XmlObjectSerializerWriteContextComplexJson.cs:77-88 | Two different namespaces never compact to the same token. |
| NamespaceCompaction.TruncateBaseNamespace | src/libraries/System.Private.DataContractSerialization/src/System/Runtime/Serialization/Json/XmlObjectSerializerWriteContextComplexJson.cs:85-88 | The base namespace compacts to `#`, and the base plus a suffix compacts to `#` plus that suffix. |
| NamespaceCompaction.TypeHintRoundTrip | src/libraries/System.Private.DataContractSerialization/src/System/Runtime/Serialization/Json/XmlObjectSerializerWriteContextComplexJson.cs:58-71 | The hint is the name alone for an empty namespace, else name, `:` and compacted namespace. For a name without `:`, splitting the hint at its first `:` recovers both name and namespace. |
| NamespaceCompaction.TypeHintInjective | src/libraries/System.Private.DataContractSerialization/src/System/Runtime/Serialization/Json/XmlObjectSerializerWriteContextComplexJson.cs:62-69 | Different (name, namespace) pairs with colon-free names give different hints. |
| WritePath.TypeInfoEvents | src/libraries/System.Private.DataContractSerialization/src/System/Runtime/Serialization/Json/XmlObjectSerializerWriteContextComplexJson.cs:58-71 | Nothing is written in `Never` mode; otherwise exactly one `__type` attribute holding the hint. |
| WritePath.WriteTypeInfoStep | src/libraries/System.Private.DataContractSerialization/src/System/Runtime/Serialization/Json/XmlObjectSerializerWriteContextComplexJson.cs:95-133 | Returns false and writes nothing when identities are equal, when the runtime type is `object[]`, or in `Never` mode; otherwise returns true. A diverging class contract writes its hint and sets the flag. A diverging non-class contract under a `System.Enum` slot fails with nothing written. Any other diverging non-class contract writes nothing and still returns true. |
| WritePath.WriteDataContractValueStep | src/libraries/System.Private.DataContractSerialization/src/System/Runtime/Serialization/Json/XmlObjectSerializerWriteContextComplexJson.cs:146-155 | In `Always` mode the JSON type name is written only if the flag is clear and the contract is a class contract. The flag is always clear afterwards, and the value goes to the encoder. |
| WritePath.PushedScope | src/libraries/System.Private.DataContractSerialization/src/System/Runtime/Serialization/Json/XmlObjectSerializerWriteContextComplexJson.cs:259-263 | A contract's own known-type map, and nothing else, is pushed exactly when it is non-empty. |
| WritePath.VerifyTypeStep | src/libraries/System.Private.DataContractSerialization/src/System/Runtime/Serialization/Json/XmlObjectSerializerWriteContextComplexJson.cs:256-274 | Passes exactly when the known-type test holds on the stack extended by the contract's own map. On success the stack is restored. On failure the push stays and the error names the type and contract. |
| WritePath.AddEachExact | src/libraries/System.Private.DataContractSerialization/src/System/Runtime/Serialization/Json/XmlObjectSerializerWriteContextComplexJson.cs:218-222 | Adding entries one by one with `Add` succeeds exactly when no key is null and no key repeats, and then yields the entries in order. A failure is the exception of the first entry `Add` rejects: `ArgumentNullException` for a null key, otherwise the duplicate-key error for a key an earlier entry holds. |
| WritePath.CopyEntriesExact | src/libraries/System.Private.DataContractSerialization/src/System/Runtime/Serialization/Json/XmlObjectSerializerWriteContextComplexJson.cs:213-222 | Copying a dictionary yields exactly its entries in enumerator order. It fails exactly when a key is null or repeats, with the exception of the first rejected entry. |
| WritePath.HandleCollectionAssignedToObjectStep | src/libraries/System.Private.DataContractSerialization/src/System/Runtime/Serialization/Json/XmlObjectSerializerWriteContextComplexJson.cs:200-232 | Acts only on a collection contract whose type differs from the slot type; otherwise the contract, the object and the flag are unchanged. When it acts, it verifies the known type if asked and clears the verify flag. A dictionary becomes a generic dictionary with the same entries. The contract becomes the `IEnumerable` contract. It fails exactly on an unknown type or on a dictionary with a null or repeated key. A copy failure leaves the state unchanged and is the exception of the first rejected entry. |
| WritePath.VerifyObjectCompatibilityWithInterface | src/libraries/System.Private.DataContractSerialization/src/System/Runtime/Serialization/Json/XmlObjectSerializerWriteContextComplexJson.cs:311-323 | Passes exactly when an XML contract's slot is `IXmlSerializable`-compatible and a collection contract's slot is a collection interface; each failure carries its own error. |
| WritePath.SerializeAndVerifyStep | src/libraries/System.Private.DataContractSerialization/src/System/Runtime/Serialization/Json/XmlObjectSerializerWriteContextComplexJson.cs:192-196 | For an interface slot, a failed compatibility check writes nothing. Otherwise the final contract, object and verify flag are handed to `SerializeAndVerifyType`. |
| WritePath.SerializeWithXsiTypeStep | src/libraries/System.Private.DataContractSerialization/src/System/Runtime/Serialization/Json/XmlObjectSerializerWriteContextComplexJson.cs:168-197 | A nested write. On success the scope stack is restored and the last event is the hand-off. On failure the log and the flag are untouched, and at most the failed check's known-type map is left pushed. |
| WritePath.SerializeWithXsiTypeAtTopLevelStep | src/libraries/System.Private.DataContractSerialization/src/System/Runtime/Serialization/Json/XmlObjectSerializerWriteContextComplexJson.cs:235-253 | The same guarantees for the root write, with the root contract as the slot. |
| WritePath.WriteExtensionDataTypeInfoStep | src/libraries/System.Private.DataContractSerialization/src/System/Runtime/Serialization/Json/XmlObjectSerializerWriteContextComplexJson.cs:283-309 | Class and `ISerializable` nodes get `"type":"object"` and the base type info. Collection nodes get `"type":"array"` and no name hint. XML nodes get nothing. Object nodes get the base type info only for a non-null value with a class contract. No `__type` attribute is written directly. |
| WritePath.WriteJsonISerializableStep | src/libraries/System.Private.DataContractSerialization/src/System/Runtime/Serialization/Json/XmlObjectSerializerWriteContextComplexJson.cs:326-339 | The bag is written only when its reported full type name equals the object's own; otherwise the call fails, naming both, and nothing is written. |
| WritePath.TypeInfoAndCollectionHints | src/libraries/System.Private.DataContractSerialization/src/System/Runtime/Serialization/Json/XmlObjectSerializerWriteContextComplexJson.cs:188-189 | Between the type decision and collection handling, a `__type` attribute is added only for a diverging class contract, and then the flag is set. |
| WritePath.AtMostOneHintPerValue | src/libraries/System.Private.DataContractSerialization/src/System/Runtime/Serialization/Json/XmlObjectSerializerWriteContextComplexJson.cs:111-155 | A value written through a slot and then handed to the encoder carries at most one `__type` attribute. |
| WritePath.TopLevelAtMostOneHintPerValue | src/libraries/System.Private.DataContractSerialization/src/System/Runtime/Serialization/Json/XmlObjectSerializerWriteContextComplexJson.cs:235-253 | The same for the root value. |
| WritePath.PayloadHints | src/libraries/System.Private.DataContractSerialization/src/System/Runtime/Serialization/Json/XmlObjectSerializerWriteContextComplexJson.cs:149-153 | The payload step adds a `__type` attribute only when the mode is `Always`, the flag is clear, and the contract is a class contract. |
| WritePath.AlwaysModeExactlyOneHint | src/libraries/System.Private.DataContractSerialization/src/System/Runtime/Serialization/Json/XmlObjectSerializerWriteContextComplexJson.cs:111-155 | In `Always` mode, a class-contract value whose flag starts clear, written through a slot that is neither an array nor a collection interface, passes every check up to the hand-off to `SerializeAndVerifyType`. It carries exactly one `__type` attribute, whether or not it diverges from its slot. |
| WritePath.NeverModeWritesNoHint | src/libraries/System.Private.DataContractSerialization/src/System/Runtime/Serialization/Json/XmlObjectSerializerWriteContextComplexJson.cs:60-102 | In `Never` mode no `__type` attribute is written for a value. |
| WritePath.SameIdentityWritesNoHint | src/libraries/System.Private.DataContractSerialization/src/System/Runtime/Serialization/Json/XmlObjectSerializerWriteContextComplexJson.cs:95-102 | A value whose contract has its slot's identity gets no slot-level hint, and the flag is unchanged. |
| WritePath.ContainerSlotGetsNoHint | src/libraries/System.Private.DataContractSerialization/src/System/Runtime/Serialization/Json/XmlObjectSerializerWriteContextComplexJson.cs:174-181 | A collection-interface or array slot uses the slot's contract, with no hint and no known-type verification. An array slot always passes. |
| WritePath.ClassDivergenceWritesHint | src/libraries/System.Private.DataContractSerialization/src/System/Runtime/Serialization/Json/XmlObjectSerializerWriteContextComplexJson.cs:111-115 | A diverging class contract, written through a slot that is neither an array nor a collection interface, passes every check up to the hand-off to `SerializeAndVerifyType`. It writes `name:compactedNamespace`, sets the flag, and hands on `verifyKnownType = true`. |
| WritePath.EnumSlotRejectsDivergence | src/libraries/System.Private.DataContractSerialization/src/System/Runtime/Serialization/Json/XmlObjectSerializerWriteContextComplexJson.cs:116-124 | A diverging non-class contract under a `System.Enum` slot fails, with the state unchanged. |
| WritePath.DictionaryThroughWeakerSlotIsNormalized | src/libraries/System.Private.DataContractSerialization/src/System/Runtime/Serialization/Json/XmlObjectSerializerWriteContextComplexJson.cs:209-230 | A dictionary with no null key and no repeated key, written through a slot of another type that is neither an array nor a collection interface, reaches the encoder, if the write passes, under the `IEnumerable` contract. It is a generic dictionary with the same entries in the same order, and carries no hint. |
| WritePath.CollectionThroughWeakerSlotMustBeKnown | src/libraries/System.Private.DataContractSerialization/src/System/Runtime/Serialization/Json/XmlObjectSerializerWriteContextComplexJson.cs:202-208 | A diverging collection, written through a slot that is neither an array nor a collection interface, passes only if it is a known type of the slot. Otherwise the write fails with the push left in place and nothing written. |
| ItemContracts.GetRevisedItemContract | src/libraries/System.Private.DataContractSerialization/src/System/Runtime/Serialization/Json/XmlObjectSerializerWriteContextComplexJson.cs:343-352 | Null stays null. A `KeyValue<,>` contract is looked up again by its type; any other contract is returned unchanged. |
| ItemContracts.RevisedItemContractIdempotent | src/libraries/System.Private.DataContractSerialization/src/System/Runtime/Serialization/Json/XmlObjectSerializerWriteContextComplexJson.cs:343-352 | For a faithful lookup, revising keeps the item type and revising twice equals revising once. |
| ItemContracts.ResolveJsonDataContractFromRootDataContract | src/libraries/System.Private.DataContractSerialization/src/System/Runtime/Serialization/Json/XmlObjectSerializerWriteContextComplexJson.cs:385-410 | Returns the first contract of the root-to-item chain with the given qualified name. Returns NotFound when the chain ends first. Returns Unfinished when the step bound runs out, having matched nothing. |
| ItemContracts.UnmatchedSelfItemChainNeverEnds | src/libraries/System.Private.DataContractSerialization/src/System/Runtime/Serialization/Json/XmlObjectSerializerWriteContextComplexJson.cs:391-408 | A collection contract whose item contract is itself, and whose name does not match, repeats forever: the walk neither finds a contract nor ends. |
| WriteContext.CopyToGenericDictionary | src/libraries/System.Private.DataContractSerialization/src/System/Runtime/Serialization/Json/XmlObjectSerializerWriteContextComplexJson.cs:213-228 | The loop adds the entries one by one. It yields exactly the source entries in enumerator order. It fails exactly when a key is null or repeats, with the exception of the first rejected entry. |
| WriteContext.WriteContextComplexJson.WriteTypeInfoText | src/libraries/System.Private.DataContractSerialization/src/System/Runtime/Serialization/Json/XmlObjectSerializerWriteContextComplexJson.cs:140-143 | Appends one `__type` attribute with the given text. |
| WriteContext.WriteContextComplexJson.WriteTypeInfoName | src/libraries/System.Private.DataContractSerialization/src/System/Runtime/Serialization/Json/XmlObjectSerializerWriteContextComplexJson.cs:58-71 | Appends the hint attribute unless the mode is `Never`. |
| WriteContext.WriteContextComplexJson.WriteTypeInfo | src/libraries/System.Private.DataContractSerialization/src/System/Runtime/Serialization/Json/XmlObjectSerializerWriteContextComplexJson.cs:95-133 | Flag, stack and log end as `WriteTypeInfoStep` gives. |
| WriteContext.WriteContextComplexJson.WriteDataContractValue | src/libraries/System.Private.DataContractSerialization/src/System/Runtime/Serialization/Json/XmlObjectSerializerWriteContextComplexJson.cs:146-155 | Flag and log end as `WriteDataContractValueStep` gives. |
| WriteContext.WriteContextComplexJson.WriteNull | src/libraries/System.Private.DataContractSerialization/src/System/Runtime/Serialization/Json/XmlObjectSerializerWriteContextComplexJson.cs:157-160 | Appends the encoder's null. |
| WriteContext.WriteContextComplexJson.SerializeWithXsiType | src/libraries/System.Private.DataContractSerialization/src/System/Runtime/Serialization/Json/XmlObjectSerializerWriteContextComplexJson.cs:168-197 | Outcome and state are those of `SerializeWithXsiTypeStep`. |
| WriteContext.WriteContextComplexJson.SerializeAndVerify | src/libraries/System.Private.DataContractSerialization/src/System/Runtime/Serialization/Json/XmlObjectSerializerWriteContextComplexJson.cs:192-196 | Outcome and state are those of `SerializeAndVerifyStep`. |
| WriteContext.WriteContextComplexJson.HandleCollectionAssignedToObject | src/libraries/System.Private.DataContractSerialization/src/System/Runtime/Serialization/Json/XmlObjectSerializerWriteContextComplexJson.cs:200-232 | The three ref results, the outcome and the stack are those of `HandleCollectionAssignedToObjectStep`. |
| WriteContext.WriteContextComplexJson.SerializeWithXsiTypeAtTopLevel | src/libraries/System.Private.DataContractSerialization/src/System/Runtime/Serialization/Json/XmlObjectSerializerWriteContextComplexJson.cs:235-253 | Outcome and state are those of `SerializeWithXsiTypeAtTopLevelStep`. |
| WriteContext.WriteContextComplexJson.VerifyType | src/libraries/System.Private.DataContractSerialization/src/System/Runtime/Serialization/Json/XmlObjectSerializerWriteContextComplexJson.cs:256-274 | Outcome and stack are those of `VerifyTypeStep`: balanced on success, push left in place on failure. |
| WriteContext.WriteContextComplexJson.WriteJsonNameWithMapping | src/libraries/System.Private.DataContractSerialization/src/System/Runtime/Serialization/Json/XmlObjectSerializerWriteContextComplexJson.cs:276-280 | Opens an `item` element and writes the member name at the index as its `item` attribute. |
| WriteContext.WriteContextComplexJson.WriteExtensionDataTypeInfo | src/libraries/System.Private.DataContractSerialization/src/System/Runtime/Serialization/Json/XmlObjectSerializerWriteContextComplexJson.cs:283-309 | The log ends as `WriteExtensionDataTypeInfoStep` gives. |
| WriteContext.WriteContextComplexJson.WriteJsonISerializable | src/libraries/System.Private.DataContractSerialization/src/System/Runtime/Serialization/Json/XmlObjectSerializerWriteContextComplexJson.cs:326-339 | Outcome and log are those of `WriteJsonISerializableStep`. |
| NamespaceCompaction.TypeHint | src/libraries/System.Private.DataContractSerialization/src/System/Runtime/Serialization/Json/XmlObjectSerializerWriteContextComplexJson.cs:58-71 | For an empty namespace the hint is the name. Otherwise it is the name, then `:`, then the compacted namespace. |
| WritePath.RequiresJsonTypeInfo | src/libraries/System.Private.DataContractSerialization/src/System/Runtime/Serialization/Json/XmlObjectSerializerWriteContextComplexJson.cs:135-138 | Every class contract needs a `__type` hint, including one for an `ISerializable` type. No primitive, enum, collection or XML contract does. |
| WritePath.Diverges | src/libraries/System.Private.DataContractSerialization/src/System/Runtime/Serialization/Json/XmlObjectSerializerWriteContextComplexJson.cs:97-102 | A value diverges from its slot exactly when the two qualified names differ, the contract is not that of `object[]`, and the mode is not `Never`. |
| WritePath.SkipsContainerTypeInfo | src/libraries/System.Private.DataContractSerialization/src/System/Runtime/Serialization/Json/XmlObjectSerializerWriteContextComplexJson.cs:174-181 | Array slots, and interface slots that are collection interfaces, skip the type decision. The top level uses the same test at 241-242. |
| WritePath.TypeInfoAndCollectionStep | src/libraries/System.Private.DataContractSerialization/src/System/Runtime/Serialization/Json/XmlObjectSerializerWriteContextComplexJson.cs:186-189 | Collection handling writes nothing and leaves the flag alone, so the log and flag are those of the type decision. A failed type decision fails with the state unchanged. On success the stack is restored. Outside a collection through another slot, the contract and object pass through and the verify flag is the decision's result. |
| ItemContracts.ItemContract | src/libraries/System.Private.DataContractSerialization/src/System/Runtime/Serialization/Json/XmlObjectSerializerWriteContextComplexJson.cs:392-402 | The item contract is the contract of a looked-up type. For a `KeyValue<K,V>` item that type is a `KeyValuePair` instance with the same arguments. Otherwise it is the surrogated item type. |
| WriteContext.WriteContextComplexJson.constructor | src/libraries/System.Private.DataContractSerialization/src/System/Runtime/Serialization/Json/XmlObjectSerializerWriteContextComplexJson.cs:27-35 | Keeps the emit mode, the root contract and the collaborators. The flag starts clear, and the stack and the log start empty. |

## Behaviour worth noting

- A failed `VerifyType` leaves its map pushed. The throw at line 267 comes before the pop at line 272. `VerifyTypeStep` and `CollectionThroughWeakerSlotMustBeKnown` state exactly that.
- A diverging collection is verified whenever `WriteTypeInfo` returned true (lines 188-189 and 204-208). No hint is ever written for it, because `RequiresJsonTypeInfo` holds only for class contracts.
- A diverging class contract is not checked against the known types here. `verifyKnownType = true` goes on to `SerializeAndVerifyType`, which does the check. That method belongs to the base class and is not part of this model.
- An extension-data object node never gets the `"type":"object"` tag. It gets the base type info only when its value is non-null and has a class contract (lines 301-307).

## Left out

- Contract lookup (`GetDataContract` overrides, 355-376, with `CheckIfTypeIsReference`), the surrogate provider, `IsKnownType` and `JsonDataContract.TypeName` are not part of this model. They are the fields of `Resolver`, an abstract lookup supplied to the context. The declared-type-ID lookup at 185-187 is the same lookup by type.
- `SerializeAndVerifyType`, `DataContractJsonSerializer.WriteJsonValue` / `WriteJsonNull`, `WriteSerializationInfo` and the base `WriteExtensionDataTypeInfo` are external. Each is recorded as an event in the output log.
- `GetObjectData` is a call into user code. Its result, the `SerializationInfo` bag, is a parameter of `WriteJsonISerializable`.
- The reflection queries (`IsInterface`, `IsArray`, `IsCollectionInterface`, `IsAssignableFrom(IXmlSerializable)`, the generic definition and arguments) are fields of `TypeRef`.
- A null namespace or known-type map is the same as an empty one, as the code treats both alike.
- The constructor's configuration copying (22-51) is left out beyond the three fields the engine reads. So are `WriteArraySize` (a no-op), `CollectionItemName`, and the one-line `ResolveDataContractFromRootDataContract` override (379-382), which calls the modelled static lookup with the root contract.
- Exception messages (`SR.Format`) are left out; each error carries only the values the message names.
- ItemContracts.ResolveJsonDataContractFromRootDataContract: the loop is bounded by a step count, because the source loop has no termination argument. An item chain that cycles without a match runs forever in the source; `UnmatchedSelfItemChainNeverEnds` shows this. The model returns `Unfinished` instead.
- `Dictionary<object, object?>` is an insertion-ordered sequence of entries. Two keys are the same key exactly when they are equal `Value`s. The `id` of an `Object` or a `DictionaryObject` stands for what the key's own `Equals` tells apart. So the keys 1 and 2 are different keys, and so are two different dictionaries with the same entries, since a dictionary's `Equals` is reference equality. Hash codes are not modelled.
- HandleCollectionAssignedToObjectStep: the new `Dictionary<object, object?>` is a fresh object in .NET, but the model gives it the `id` of the dictionary it copies. Nothing on the write path compares the copy with another value, so the model does not track fresh identities.
- `ExpandNamespace` and `SplitTypeHint` are reading-side inverses defined only to state the round trips. The JSON reader is not part of this model.
- The values of `Globals` and `JsonGlobals` constants are the published .NET ones: the base namespace, `__type`, `type`, `object`, `array`, `item` and `:`. Those files are not part of this model.
- `JsonEnumDataContract` reads and writes enum values as 64-bit numbers. Only its `IsULong` flag is kept, as the field of the `Enum` shape; the numeric conversions are not part of this model.
- `Int64Tests.cs` and `TarHelpers.Windows.cs` belong to unrelated components.

=== FILE: data_contracts.dfy ===
/** The contract model the JSON write path consumes: runtime types as abstract
    records of the reflection facts the engine asks about, data contracts as a
    closed union of shapes, the values being written, and the serialization
    errors the engine raises. Contracts are produced elsewhere and never changed
    here. */
module DataContracts {

  datatype Option<T> = None | Some(value: T)

  /** A runtime type, reduced to the reflection queries the write path makes:
      `IsInterface`, `IsArray`, whether it is a collection interface, whether
      `IXmlSerializable` is assignable from it, and its generic definition
      (empty when the type is not generic) with its generic arguments. Two types
      are the same type exactly when these records are equal. */
  datatype TypeRef = TypeRef(
    fullName: string,
    isInterface: bool,
    isArray: bool,
    isCollectionInterface: bool,
    isXmlSerializable: bool,
    genericDefinition: string,
    genericArguments: seq<TypeRef>)

  predicate IsGenericType(t: TypeRef) {
    t.genericDefinition != ""
  }

  /** `definition.MakeGenericType(args)` for a generic struct definition. */
  function MakeGenericType(definition: string, args: seq<TypeRef>): TypeRef {
    TypeRef(definition, false, false, false, false, definition, args)
  }

  const TypeOfObjectArray: TypeRef := TypeRef("System.Object[]", false, true, false, false, "", [])
  const TypeOfEnum: TypeRef := TypeRef("System.Enum", false, false, false, false, "", [])
  const TypeOfIEnumerable: TypeRef := TypeRef("System.Collections.IEnumerable", true, false, true, false, "", [])
  const KeyValueDefinition: string := "System.Runtime.Serialization.KeyValue`2"
  const KeyValuePairDefinition: string := "System.Collections.Generic.KeyValuePair`2"

  /** An XML qualified name; `==` compares name and namespace by value. */
  datatype QName = QName(name: string, ns: string)

  /** The known-type map a contract declares (`KnownDataContracts`); a null map
      is the empty map here. */
  type KnownTypes = map<QName, TypeRef>

  datatype CollectionKind =
    | GenericDictionary | Dictionary | GenericList | GenericCollection | List
    | GenericEnumerable | Collection | Enumerable | Array

  /** The closed set of contract kinds. A type serialized through
      `ISerializable` has a class contract, flagged `isISerializable`. */
  datatype Shape =
    | Primitive
    | Enum(isULong: bool)
    | Class(isISerializable: bool)
    | Collection(kind: CollectionKind, itemType: TypeRef)
    | Xml

  /** A data contract: its identity (name and namespace), the type it
      describes, the known types it declares, and its shape. */
  datatype DataContract = DataContract(
    name: string,
    ns: string,
    underlyingType: TypeRef,
    knownDataContracts: KnownTypes,
    shape: Shape)

  function XmlName(c: DataContract): QName {
    QName(c.name, c.ns)
  }

  /** The object being written. Only dictionary-ness is observable by the
      engine: any `IDictionary` is a `DictionaryObject` whose entries are listed
      in enumerator order. `id` tells apart objects that `Equals` tells
      apart: the keys 1 and 2 of one type, say, and two dictionaries, whose
      `Equals` is reference equality, even when their entries agree. One
      identity stands for one object, with one type name and one list of
      entries, so two values are equal as dictionary keys exactly when they
      are equal here. */
  datatype Value =
    | Null
    | Object(typeName: string, id: nat)
    | DictionaryObject(typeName: string, id: nat, entries: seq<Entry>)

  datatype Entry = Entry(key: Value, value: Value)

  /** The exceptions the write path throws. `NullKey` is the
      `ArgumentNullException` of `Dictionary.Add` for a null key. */
  datatype SerializationError =
    | EnumTypeNotSupportedByDataContractJsonSerializer(declaredType: TypeRef)
    | DcTypeNotFoundOnSerialize(clrTypeName: string, contractName: string, contractNamespace: string)
    | XmlObjectAssignedToIncompatibleInterface(interfaceType: TypeRef)
    | CollectionAssignedToIncompatibleInterface(interfaceType: TypeRef)
    | ChangingFullTypeNameNotSupported(reportedName: string, actualName: string)
    | DuplicateKey(key: Value)
    | NullKey

  datatype Result<T> = Success(value: T) | Failure(error: SerializationError)

  datatype Outcome = Pass | Fail(error: SerializationError)
}

=== FILE: item_contracts.dfy ===
/** Item-contract lookups: re-resolving `KeyValue<,>` item contracts, and
    finding a contract by qualified name along the chain of nested collection
    item contracts that starts at the root contract. */
module ItemContracts {
  import opened DataContracts
  import opened WritePath

  predicate IsKeyValueType(t: TypeRef) {
    IsGenericType(t) && t.genericDefinition == KeyValueDefinition
  }

  /** A contract whose type is `KeyValue<,>` is looked up afresh by its type;
      every other contract, and null, is returned as it is. */
  function GetRevisedItemContract(r: Resolver, oldItemContract: Option<DataContract>): (revised: Option<DataContract>)
    ensures revised.Some? <==> oldItemContract.Some?
    ensures oldItemContract.Some? && !IsKeyValueType(oldItemContract.value.underlyingType) ==> revised == oldItemContract
    ensures oldItemContract.Some? && IsKeyValueType(oldItemContract.value.underlyingType) ==>
      revised.value == r.getDataContract(oldItemContract.value.underlyingType)
  {
    match oldItemContract
    case None => None
    case Some(c) =>
      if IsKeyValueType(c.underlyingType) then Some(r.getDataContract(c.underlyingType)) else oldItemContract
  }

  /** The lookup describes a type faithfully when the contract it returns is
      a contract of that type. */
  predicate FaithfulFor(r: Resolver, t: TypeRef) {
    r.getDataContract(t).underlyingType == t
  }

  /** Revising keeps the item type and, for a faithful lookup, a revised
      contract needs no further revision. */
  lemma RevisedItemContractIdempotent(r: Resolver, oldItemContract: Option<DataContract>)
    requires oldItemContract.Some? ==> FaithfulFor(r, oldItemContract.value.underlyingType)
    ensures var revised := GetRevisedItemContract(r, oldItemContract);
      (revised.Some? ==> revised.value.underlyingType == oldItemContract.value.underlyingType) &&
      GetRevisedItemContract(r, revised) == revised
  {
  }

  /** The contract of the items of a collection contract: for `KeyValue<K,V>`
      items the contract of `KeyValuePair<K,V>`, otherwise the contract of the
      surrogated item type. */
  function ItemContract(r: Resolver, c: DataContract): (ic: DataContract)
    requires c.shape.Collection?
    ensures exists t ::
      && ic == r.getDataContract(t)
      && (IsKeyValueType(c.shape.itemType) ==>
            t.genericDefinition == KeyValuePairDefinition && t.genericArguments == c.shape.itemType.genericArguments)
      && (!IsKeyValueType(c.shape.itemType) ==> t == r.getSurrogatedType(c.shape.itemType))
  {
    var item := c.shape.itemType;
    if IsKeyValueType(item) then
      r.getDataContract(MakeGenericType(KeyValuePairDefinition, item.genericArguments))
    else
      r.getDataContract(r.getSurrogatedType(item))
  }

  /** The k-th contract of the chain that starts at `root` and steps from each
      collection contract to its item contract; None once the chain has ended
      at a contract that is not a collection. */
  function ChainAt(r: Resolver, root: DataContract, k: nat): Option<DataContract>
    decreases k
  {
    if k == 0 then Some(root)
    else match ChainAt(r, root, k - 1)
      case None => None
      case Some(c) => if c.shape.Collection? then Some(ItemContract(r, c)) else None
  }

  predicate MatchesAt(r: Resolver, typeQName: QName, root: DataContract, k: nat) {
    ChainAt(r, root, k).Some? && XmlName(ChainAt(r, root, k).value) == typeQName
  }

  /** Outcome of the walk: the contract found, the end of the chain (null in
      the source), or the step bound reached while the chain went on. */
  datatype Resolution = Found(contract: DataContract) | NotFound | Unfinished

  /** No contract among the first n + 1 of the chain has the name, and the
      chain has not ended before them. */
  predicate NoMatchThrough(r: Resolver, typeQName: QName, root: DataContract, n: nat) {
    forall j :: 0 <= j <= n ==> ChainAt(r, root, j).Some? && !MatchesAt(r, typeQName, root, j)
  }

  lemma ChainNext(r: Resolver, root: DataContract, k: nat, c: DataContract)
    requires ChainAt(r, root, k) == Some(c)
    ensures c.shape.Collection? ==> ChainAt(r, root, k + 1) == Some(ItemContract(r, c))
    ensures !c.shape.Collection? ==> ChainAt(r, root, k + 1).None?
  {
  }

  lemma NoMatchExtend(r: Resolver, typeQName: QName, root: DataContract, n: nat, c: DataContract)
    requires NoMatchThrough(r, typeQName, root, n)
    requires ChainAt(r, root, n + 1) == Some(c) && XmlName(c) != typeQName
    ensures NoMatchThrough(r, typeQName, root, n + 1)
  {
  }

  /** Returns the first contract of the chain whose qualified name is
      `typeQName`, examining at most `fuel` item contracts after the root.
      The three outcomes are exclusive and cover every case. */
  method ResolveJsonDataContractFromRootDataContract(r: Resolver, typeQName: QName, root: DataContract, fuel: nat) returns (res: Resolution)
    ensures res.Found? ==>
      exists k :: 0 <= k <= fuel && ChainAt(r, root, k) == Some(res.contract) &&
        XmlName(res.contract) == typeQName &&
        forall j :: 0 <= j < k ==> !MatchesAt(r, typeQName, root, j)
    ensures res.NotFound? ==>
      exists n :: 0 < n <= fuel + 1 && ChainAt(r, root, n).None? &&
        forall j :: 0 <= j < n ==> !MatchesAt(r, typeQName, root, j)
    ensures res.Unfinished? ==> NoMatchThrough(r, typeQName, root, fuel)
  {
    if XmlName(root) == typeQName {
      assert ChainAt(r, root, 0) == Some(root);
      return Found(root);
    }
    assert NoMatchThrough(r, typeQName, root, 0);
    ChainNext(r, root, 0, root);
    var collectionContract: Option<DataContract> := if root.shape.Collection? then Some(root) else None;
    var steps: nat := 0;
    while collectionContract.Some?
      invariant steps <= fuel
      invariant NoMatchThrough(r, typeQName, root, steps)
      invariant collectionContract.Some? ==> ChainAt(r, root, steps) == collectionContract && collectionContract.value.shape.Collection?
      invariant collectionContract.None? ==> ChainAt(r, root, steps + 1).None?
      decreases fuel - steps
    {
      if steps == fuel {
        return Unfinished;
      }
      var cc := collectionContract.value;
      var itemType := cc.shape.itemType;
      var itemContract: DataContract;
      if IsGenericType(itemType) && itemType.genericDefinition == KeyValueDefinition {
        itemContract := r.getDataContract(MakeGenericType(KeyValuePairDefinition, itemType.genericArguments));
      } else {
        itemContract := r.getDataContract(r.getSurrogatedType(itemType));
      }
      ChainNext(r, root, steps, cc);
      assert ChainAt(r, root, steps + 1) == Some(itemContract);
      if XmlName(itemContract) == typeQName {
        assert forall j :: 0 <= j < steps + 1 ==> !MatchesAt(r, typeQName, root, j);
        return Found(itemContract);
      }
      NoMatchExtend(r, typeQName, root, steps, itemContract);
      ChainNext(r, root, steps + 1, itemContract);
      collectionContract := if itemContract.shape.Collection? then Some(itemContract) else None;
      steps := steps + 1;
    }
    assert forall j :: 0 <= j < steps + 1 ==> !MatchesAt(r, typeQName, root, j);
    return NotFound;
  }

  /** A collection contract whose item contract is itself makes the chain
      repeat the root forever: when the name does not match, the walk neither
      finds a contract nor reaches the end, for any step bound. */
  lemma {:induction false} UnmatchedSelfItemChainNeverEnds(r: Resolver, typeQName: QName, root: DataContract, k: nat)
    requires root.shape.Collection? && ItemContract(r, root) == root
    requires XmlName(root) != typeQName
    ensures ChainAt(r, root, k) == Some(root) && !MatchesAt(r, typeQName, root, k)
    decreases k
  {
    if k > 0 {
      UnmatchedSelfItemChainNeverEnds(r, typeQName, root, k - 1);
    }
  }
}

=== FILE: namespace_compaction.dfy ===
/** The compact form of a data-contract namespace used in JSON `__type` hints,
    and the hint string itself. `ExpandNamespace` and `SplitTypeHint` are the
    reading-side inverses, defined here so that the lemmas can show the compact
    form loses nothing. */
module NamespaceCompaction {

  /** `Globals.DataContractXsdBaseNamespace`, the default namespace of data
      contracts; it starts with neither '#' nor '\'. */
  const DataContractXsdBaseNamespace: string := "http://schemas.datacontract.org/2004/07/"

  /** `JsonGlobals.NameValueSeparatorString`. */
  const NameValueSeparator: char := ':'

  /** A namespace the compactor escapes with a leading '\'. */
  predicate NeedsEscape(ns: string) {
    ns != [] && (ns[0] == '#' || ns[0] == '\\')
  }

  /** A namespace the compactor shortens to '#' followed by the remainder. */
  predicate HasBasePrefix(ns: string) {
    ns != [] && !NeedsEscape(ns) && DataContractXsdBaseNamespace <= ns
  }

  /** The three output forms never overlap: escaped outputs start with '\',
      shortened ones with '#', and everything else is passed through and
      starts with neither. */
  function TruncateDefaultDataContractNamespace(ns: string): (r: string)
    ensures r == [] <==> ns == []
    ensures r != [] && r[0] == '\\' <==> NeedsEscape(ns)
    ensures r != [] && r[0] == '#' <==> HasBasePrefix(ns)
    ensures NeedsEscape(ns) ==> r[1..] == ns
    ensures HasBasePrefix(ns) ==> DataContractXsdBaseNamespace + r[1..] == ns
    ensures !NeedsEscape(ns) && !HasBasePrefix(ns) ==> r == ns
  {
    if ns != [] then
      if ns[0] == '#' then
        "\\" + ns
      else if ns[0] == '\\' then
        "\\" + ns
      else if DataContractXsdBaseNamespace <= ns then
        "#" + ns[|DataContractXsdBaseNamespace|..]
      else
        ns
    else
      ns
  }

  /** The reading side of the compaction. */
  function ExpandNamespace(token: string): string {
    if token == [] then token
    else if token[0] == '\\' then token[1..]
    else if token[0] == '#' then DataContractXsdBaseNamespace + token[1..]
    else token
  }

  lemma ExpandTruncate(ns: string)
    ensures ExpandNamespace(TruncateDefaultDataContractNamespace(ns)) == ns
  {
    var r := TruncateDefaultDataContractNamespace(ns);
    if HasBasePrefix(ns) {
      assert r[0] == '#';
    } else if NeedsEscape(ns) {
      assert r[0] == '\\';
    }
  }

  /** Two different namespaces never compact to the same token. */
  lemma TruncateInjective(a: string, b: string)
    requires TruncateDefaultDataContractNamespace(a) == TruncateDefaultDataContractNamespace(b)
    ensures a == b
  {
    ExpandTruncate(a);
    ExpandTruncate(b);
  }

  /** The base namespace itself compacts to "#", and anything below it to
      "#" followed by the part after the base. */
  lemma TruncateBaseNamespace(rest: string)
    ensures TruncateDefaultDataContractNamespace(DataContractXsdBaseNamespace) == "#"
    ensures TruncateDefaultDataContractNamespace(DataContractXsdBaseNamespace + rest) == "#" + rest
  {
    var b := DataContractXsdBaseNamespace;
    assert b[0] == 'h';
    assert (b + rest)[0] == 'h';
    assert b <= b + rest;
    assert (b + rest)[|b|..] == rest;
    assert b[|b|..] == [];
  }

  /** The `__type` hint text: the name alone when the namespace is empty,
      otherwise name, separator and compacted namespace. */
  function TypeHint(name: string, ns: string): (h: string)
    ensures ns == [] ==> h == name
    ensures ns != [] ==>
      |h| > |name| && h[..|name|] == name && h[|name|] == NameValueSeparator &&
      h[|name| + 1..] == TruncateDefaultDataContractNamespace(ns)
  {
    if ns == [] then name
    else name + [NameValueSeparator] + TruncateDefaultDataContractNamespace(ns)
  }

  /** Index of the first occurrence of `c` in `s`, or `|s|` when absent. */
  function FirstIndexOf(s: string, c: char): (i: nat)
    ensures i <= |s|
    ensures i < |s| ==> s[i] == c
    ensures forall j :: 0 <= j < i ==> s[j] != c
    ensures i == |s| <==> c !in s
  {
    if s == [] then 0
    else if s[0] == c then 0
    else 1 + FirstIndexOf(s[1..], c)
  }

  /** The reading side of the hint: split at the first separator and expand
      the namespace part. */
  function SplitTypeHint(hint: string): (string, string) {
    var i := FirstIndexOf(hint, NameValueSeparator);
    if i == |hint| then (hint, "")
    else (hint[..i], ExpandNamespace(hint[i + 1..]))
  }

  /** Contract names are XML names and carry no ':', so the hint determines
      both the name and the namespace. */
  lemma TypeHintRoundTrip(name: string, ns: string)
    requires NameValueSeparator !in name
    ensures SplitTypeHint(TypeHint(name, ns)) == (name, ns)
  {
    var h := TypeHint(name, ns);
    if ns != [] {
      var t := TruncateDefaultDataContractNamespace(ns);
      assert h == name + [NameValueSeparator] + t;
      assert h[|name|] == NameValueSeparator;
      assert forall j :: 0 <= j < |name| ==> h[j] == name[j];
      var i := FirstIndexOf(h, NameValueSeparator);
      assert i == |name|;
      assert h[..i] == name;
      assert h[i + 1..] == t;
      ExpandTruncate(ns);
    }
  }

  lemma TypeHintInjective(name1: string, ns1: string, name2: string, ns2: string)
    requires NameValueSeparator !in name1 && NameValueSeparator !in name2
    requires TypeHint(name1, ns1) == TypeHint(name2, ns2)
    ensures name1 == name2 && ns1 == ns2
  {
    TypeHintRoundTrip(name1, ns1);
    TypeHintRoundTrip(name2, ns2);
  }
}

=== FILE: write_context.dfy ===
/** The JSON write context: the object the serializer drives while writing one
    object graph. It holds the emit mode, the root contract and the
    collaborators it consults, and updates in place the per-call flag, the
    stack of scoped known-type maps and the log of what it hands to the writer.
    Each method's new state is the corresponding step of WritePath. */
module WriteContext {
  import opened DataContracts
  import opened NamespaceCompaction
  import opened WritePath

  /** Copies the entries of a non-generic dictionary, in enumerator order, into
      a new `Dictionary<object, object?>`; `Add` fails on a null key and on a
      repeated key. */
  method CopyToGenericDictionary(entries: seq<Entry>) returns (r: Result<seq<Entry>>)
    ensures r == AddEach([], entries)
    ensures r.Success? <==> ValidKeys(entries)
    ensures r.Success? ==> r.value == entries
    ensures r.Failure? ==> exists j :: FirstRejected(entries, j, r.error)
  {
    var added: seq<Entry> := [];
    var i := 0;
    while i < |entries|
      invariant 0 <= i <= |entries|
      invariant added == entries[..i]
      invariant AddEach(added, entries[i..]) == AddEach([], entries)
    {
      var entry := entries[i];
      assert entries[i..][1..] == entries[i + 1..];
      if entry.key == Null {
        CopyEntriesExact(entries);
        return Failure(NullKey);
      }
      if HasKey(added, entry.key) {
        CopyEntriesExact(entries);
        return Failure(DuplicateKey(entry.key));
      }
      added := added + [entry];
      i := i + 1;
    }
    assert entries[i..] == [];
    CopyEntriesExact(entries);
    return Success(added);
  }

  class WriteContextComplexJson {
    const emitXsiType: EmitTypeInformation
    const rootTypeDataContract: DataContract
    const resolver: Resolver
    var perCallXsiTypeAlreadyEmitted: bool
    var scopedKnownTypes: seq<KnownTypes>
    var output: seq<Event>

    function State(): Snapshot
      reads this
    {
      Snapshot(perCallXsiTypeAlreadyEmitted, scopedKnownTypes, output)
    }

    constructor (emitXsiType: EmitTypeInformation, rootTypeDataContract: DataContract, resolver: Resolver)
      ensures this.emitXsiType == emitXsiType && this.rootTypeDataContract == rootTypeDataContract
      ensures this.resolver == resolver
      ensures State() == Snapshot(false, [], [])
    {
      this.emitXsiType := emitXsiType;
      this.rootTypeDataContract := rootTypeDataContract;
      this.resolver := resolver;
      perCallXsiTypeAlreadyEmitted := false;
      scopedKnownTypes := [];
      output := [];
    }

    /** Writes the `__type` attribute with the given text. */
    method WriteTypeInfoText(typeInformation: string)
      modifies this`output
      ensures output == old(output) + [Attribute(ServerTypeString, typeInformation)]
    {
      output := output + [Attribute(ServerTypeString, typeInformation)];
    }

    /** Writes the hint for a name and namespace, unless the mode is `Never`. */
    method WriteTypeInfoName(dataContractName: string, dataContractNamespace: string)
      modifies this`output
      ensures output == old(output) + TypeInfoEvents(emitXsiType, dataContractName, dataContractNamespace)
    {
      if emitXsiType != Never {
        if dataContractNamespace == "" {
          WriteTypeInfoText(dataContractName);
        } else {
          WriteTypeInfoText(dataContractName + [NameValueSeparator] + TruncateDefaultDataContractNamespace(dataContractNamespace));
        }
      }
    }

    /** Decides whether the value diverges from its slot and writes the hint
        for a diverging class contract; returns whether known types must be
        verified. */
    method WriteTypeInfo(contract: DataContract, declaredContract: DataContract) returns (verifyKnownType: bool, status: Outcome)
      modifies this`perCallXsiTypeAlreadyEmitted, this`output
      ensures var st := WriteTypeInfoStep(emitXsiType, old(State()), contract, declaredContract);
        status == st.status && State() == st.state && (status.Pass? ==> verifyKnownType == st.result)
    {
      if !SameIdentity(contract, declaredContract) && contract.underlyingType != TypeOfObjectArray && emitXsiType != Never {
        if RequiresJsonTypeInfo(contract) {
          perCallXsiTypeAlreadyEmitted := true;
          WriteTypeInfoName(contract.name, contract.ns);
        } else if declaredContract.underlyingType == TypeOfEnum {
          return false, Fail(EnumTypeNotSupportedByDataContractJsonSerializer(declaredContract.underlyingType));
        }
        return true, Pass;
      }
      return false, Pass;
    }

    method WriteDataContractValue(dataContract: DataContract, obj: Value, declaredType: TypeRef)
      modifies this`perCallXsiTypeAlreadyEmitted, this`output
      ensures State() == WriteDataContractValueStep(emitXsiType, resolver, old(State()), dataContract, obj, declaredType)
    {
      if emitXsiType == Always && !perCallXsiTypeAlreadyEmitted && RequiresJsonTypeInfo(dataContract) {
        WriteTypeInfoText(resolver.jsonTypeName(dataContract));
      }
      perCallXsiTypeAlreadyEmitted := false;
      output := output + [JsonValue(dataContract, obj, declaredType)];
    }

    method WriteNull()
      modifies this`output
      ensures output == old(output) + [JsonNull]
    {
      output := output + [JsonNull];
    }

    /** Writes a nested value through a slot of type `declaredType`. */
    method SerializeWithXsiType(obj: Value, objectType: TypeRef, declaredType: TypeRef) returns (status: Outcome)
      requires ValueFits(resolver.getDataContract(objectType), obj)
      modifies this
      ensures var st := SerializeWithXsiTypeStep(resolver, emitXsiType, old(State()), obj, objectType, declaredType);
        status == st.status && State() == st.state
    {
      var dataContract: DataContract;
      var value := obj;
      var verifyKnownType := false;
      var isDeclaredTypeInterface := declaredType.isInterface;
      if isDeclaredTypeInterface && declaredType.isCollectionInterface {
        dataContract := resolver.getDataContract(declaredType);
      } else if declaredType.isArray {
        dataContract := resolver.getDataContract(declaredType);
      } else {
        dataContract := resolver.getDataContract(objectType);
        var declaredTypeContract := resolver.getDataContract(declaredType);
        verifyKnownType, status := WriteTypeInfo(dataContract, declaredTypeContract);
        if status.Fail? {
          return;
        }
        dataContract, value, verifyKnownType, status := HandleCollectionAssignedToObject(declaredType, dataContract, value, verifyKnownType);
        if status.Fail? {
          return;
        }
      }
      status := SerializeAndVerify(dataContract, value, verifyKnownType, declaredType);
    }

    /** The tail shared by both entry points: the interface check, then the
        hand-off to `SerializeAndVerifyType`. */
    method SerializeAndVerify(dataContract: DataContract, obj: Value, verifyKnownType: bool, declaredType: TypeRef) returns (status: Outcome)
      modifies this`output
      ensures var st := SerializeAndVerifyStep(old(State()), Handled(dataContract, obj, verifyKnownType), declaredType);
        status == st.status && State() == st.state
    {
      if declaredType.isInterface {
        status := VerifyObjectCompatibilityWithInterface(dataContract, declaredType);
        if status.Fail? {
          return;
        }
      }
      output := output + [SerializeAndVerifyType(dataContract, obj, verifyKnownType, declaredType)];
      status := Pass;
    }

    method HandleCollectionAssignedToObject(declaredType: TypeRef, dataContract: DataContract, obj: Value, verifyKnownType: bool)
      returns (newContract: DataContract, newObj: Value, newVerifyKnownType: bool, status: Outcome)
      requires ValueFits(dataContract, obj)
      modifies this`scopedKnownTypes
      ensures var st := HandleCollectionAssignedToObjectStep(resolver, old(State()), declaredType, dataContract, obj, verifyKnownType);
        status == st.status && State() == st.state &&
        (status.Pass? ==> Handled(newContract, newObj, newVerifyKnownType) == st.result)
    {
      newContract, newObj, newVerifyKnownType, status := dataContract, obj, verifyKnownType, Pass;
      if declaredType != dataContract.underlyingType && dataContract.shape.Collection? {
        if newVerifyKnownType {
          status := VerifyType(dataContract, declaredType);
          if status.Fail? {
            return;
          }
          newVerifyKnownType := false;
        }
        if dataContract.shape.kind == Dictionary {
          var copied := CopyToGenericDictionary(obj.entries);
          if copied.Failure? {
            status := Fail(copied.error);
            return;
          }
          newObj := DictionaryObject(GenericObjectDictionaryType, obj.id, copied.value);
        }
        newContract := resolver.getDataContract(TypeOfIEnumerable);
      }
    }

    /** Writes the root value, whose slot is the root contract's type. */
    method SerializeWithXsiTypeAtTopLevel(dataContract: DataContract, obj: Value) returns (status: Outcome)
      requires ValueFits(dataContract, obj)
      modifies this
      ensures var st := SerializeWithXsiTypeAtTopLevelStep(resolver, emitXsiType, rootTypeDataContract, old(State()), dataContract, obj);
        status == st.status && State() == st.state
    {
      var verifyKnownType := false;
      var contract := dataContract;
      var value := obj;
      var declaredType := rootTypeDataContract.underlyingType;
      var isDeclaredTypeInterface := declaredType.isInterface;
      if !(isDeclaredTypeInterface && declaredType.isCollectionInterface) && !declaredType.isArray {
        verifyKnownType, status := WriteTypeInfo(contract, rootTypeDataContract);
        if status.Fail? {
          return;
        }
        contract, value, verifyKnownType, status := HandleCollectionAssignedToObject(declaredType, contract, value, verifyKnownType);
        if status.Fail? {
          return;
        }
      }
      status := SerializeAndVerify(contract, value, verifyKnownType, declaredType);
    }

    /** Checks that a contract is a known type of the slot, with the contract's
        own known types pushed for the check. A failure leaves the push in
        place. */
    method VerifyType(dataContract: DataContract, declaredType: TypeRef) returns (status: Outcome)
      modifies this`scopedKnownTypes
      ensures var st := VerifyTypeStep(resolver, old(State()), dataContract, declaredType);
        status == st.status && State() == st.state
    {
      var knownTypesAddedInCurrentScope := false;
      if |dataContract.knownDataContracts| > 0 {
        scopedKnownTypes := scopedKnownTypes + [dataContract.knownDataContracts];
        knownTypesAddedInCurrentScope := true;
      }
      assert scopedKnownTypes == old(scopedKnownTypes) + PushedScope(dataContract);
      if !resolver.isKnownType(dataContract, declaredType, scopedKnownTypes) {
        return Fail(DcTypeNotFoundOnSerialize(dataContract.underlyingType.fullName, dataContract.name, dataContract.ns));
      }
      if knownTypesAddedInCurrentScope {
        scopedKnownTypes := scopedKnownTypes[..|scopedKnownTypes| - 1];
      }
      return Pass;
    }

    /** Opens an `item` element named by the member name at `index`. */
    method WriteJsonNameWithMapping(memberNames: seq<string>, index: nat)
      requires index < |memberNames|
      modifies this`output
      ensures output == old(output) + [StartElement("a", ItemString, ItemString), Attribute(ItemString, memberNames[index])]
    {
      output := output + [StartElement("a", ItemString, ItemString)];
      output := output + [Attribute(ItemString, memberNames[index])];
    }

    method WriteExtensionDataTypeInfo(dataNode: DataNode)
      modifies this`output
      ensures State() == WriteExtensionDataTypeInfoStep(resolver, old(State()), dataNode)
    {
      var dataType := dataNode.dataType;
      if dataType == ClassDataNode || dataType == ISerializableDataNode {
        output := output + [Attribute(TypeString, ObjectString)];
        output := output + [ExtensionDataTypeInfo(dataNode)];
      } else if dataType == CollectionDataNode {
        output := output + [Attribute(TypeString, ArrayString)];
      } else if dataType == XmlDataNode {
      } else if dataType == ObjectDataNode && dataNode.value != Null {
        var dc := resolver.getDataContract(dataNode.valueType);
        if RequiresJsonTypeInfo(dc) {
          output := output + [ExtensionDataTypeInfo(dataNode)];
        }
      }
    }

    /** Writes an `ISerializable` object from the bag its `GetObjectData`
        produced, refusing a bag that reports another type name. */
    method WriteJsonISerializable(objType: TypeRef, info: SerializationInfo) returns (status: Outcome)
      modifies this`output
      ensures var st := WriteJsonISerializableStep(old(State()), objType, info);
        status == st.status && State() == st.state
    {
      if objType.fullName != info.fullTypeName {
        return Fail(ChangingFullTypeNameNotSupported(info.fullTypeName, objType.fullName));
      }
      output := output + [SerializationInfoWritten(objType, info)];
      return Pass;
    }
  }
}

=== FILE: write_path.dfy ===
/** The decisions of the JSON write path, as functions from the engine's state
    before a call to its state after it. The engine's state is the per-call
    "type hint already emitted" flag, the stack of scoped known-type maps and the
    log of what was handed to the writer. The class in WriteContext performs
    these steps in place; the lemmas here state what the steps promise. */
module WritePath {
  import opened DataContracts
  import opened NamespaceCompaction

  /** `JsonGlobals` attribute names and values. */
  const ServerTypeString: string := "__type"
  const TypeString: string := "type"
  const ObjectString: string := "object"
  const ArrayString: string := "array"
  const ItemString: string := "item"

  /** The type of the `Dictionary<object, object?>` a non-generic dictionary
      is copied into. */
  const GenericObjectDictionaryType: string := "System.Collections.Generic.Dictionary`2[System.Object,System.Object]"

  datatype EmitTypeInformation = AsNeeded | Always | Never

  datatype DataNodeType =
    | ClassDataNode | ISerializableDataNode | CollectionDataNode | XmlDataNode
    | ObjectDataNode | OtherDataNode

  /** An extension-data node: its node type, its value and the runtime type of
      that value. */
  datatype DataNode = DataNode(dataType: DataNodeType, value: Value, valueType: TypeRef)

  /** The name/value bag an `ISerializable` object fills in `GetObjectData`. */
  datatype SerializationInfo = SerializationInfo(fullTypeName: string, members: seq<(string, Value)>)

  /** What the engine hands to the writer and to the collaborators it calls. */
  datatype Event =
    | Attribute(name: string, text: string)
    | StartElement(prefix: string, localName: string, ns: string)
    | ExtensionDataTypeInfo(node: DataNode)
    | JsonValue(contract: DataContract, obj: Value, declaredType: TypeRef)
    | JsonNull
    | SerializeAndVerifyType(contract: DataContract, obj: Value, verifyKnownType: bool, declaredType: TypeRef)
    | SerializationInfoWritten(objType: TypeRef, info: SerializationInfo)

  /** The collaborators the engine consults: contract lookup by type, the
      surrogate provider, the known-type test over the scope stack, and the
      JSON type name of a contract. */
  datatype Resolver = Resolver(
    getDataContract: TypeRef -> DataContract,
    getSurrogatedType: TypeRef -> TypeRef,
    isKnownType: (DataContract, TypeRef, seq<KnownTypes>) -> bool,
    jsonTypeName: DataContract -> string)

  datatype Snapshot = Snapshot(alreadyEmitted: bool, scopes: seq<KnownTypes>, output: seq<Event>)

  /** The result of one step: a returned value (meaningful when `status` is
      `Pass`), the outcome and the new state. A failed step leaves the state as
      it was at the throw. */
  datatype Step<T> = Step(result: T, status: Outcome, state: Snapshot)

  /** The contract, object and verify-known-type flag handed on to
      `SerializeAndVerifyType`. */
  datatype Handled = Handled(contract: DataContract, obj: Value, verifyKnownType: bool)

  predicate IsHint(e: Event) {
    e.Attribute? && e.name == ServerTypeString
  }

  /** Number of `__type` attributes in a log. */
  function Hints(out: seq<Event>): nat {
    if out == [] then 0
    else Hints(out[..|out| - 1]) + (if IsHint(out[|out| - 1]) then 1 else 0)
  }

  lemma {:induction false} HintsAppend(a: seq<Event>, b: seq<Event>)
    ensures Hints(a + b) == Hints(a) + Hints(b)
    decreases |b|
  {
    if b == [] {
      assert a + b == a;
    } else {
      var n := |b| - 1;
      assert (a + b)[..|a + b| - 1] == a + b[..n];
      assert (a + b)[|a + b| - 1] == b[n];
      HintsAppend(a, b[..n]);
    }
  }

  lemma HintsSnoc(a: seq<Event>, e: Event)
    ensures Hints(a + [e]) == Hints(a) + (if IsHint(e) then 1 else 0)
  {
    assert (a + [e])[..|a|] == a;
  }

  // ---------------------------------------------------------------------
  // Identity and the `__type` hint

  /** Same identity: equal names and equal namespaces. The reference-equality
      shortcut of the source implies this. */
  predicate SameIdentity(c: DataContract, d: DataContract) {
    c.name == d.name && c.ns == d.ns
  }

  /** Only class contracts, those of `ISerializable` types included, carry a
      `__type` hint; primitive, enum, collection and XML contracts never do. */
  predicate RequiresJsonTypeInfo(c: DataContract): (b: bool)
    ensures c.shape.Class? ==> b
    ensures c.shape.Primitive? || c.shape.Enum? || c.shape.Collection? || c.shape.Xml? ==> !b
  {
    c.shape.Class?
  }

  /** The guard of `WriteTypeInfo(writer, contract, declaredContract)`: the
      value's qualified name differs from its slot's, the contract is not the
      one of `object[]`, and the mode is not `Never`. */
  predicate Diverges(emit: EmitTypeInformation, c: DataContract, d: DataContract): (b: bool)
    ensures b <==> XmlName(c) != XmlName(d) && c.underlyingType != TypeOfObjectArray && emit != Never
  {
    !SameIdentity(c, d) && c.underlyingType != TypeOfObjectArray && emit != Never
  }

  /** What `WriteTypeInfo(writer, name, namespace)` writes. */
  function TypeInfoEvents(emit: EmitTypeInformation, name: string, ns: string): (r: seq<Event>)
    ensures r == [] <==> emit == Never
    ensures r != [] ==> r == [Attribute(ServerTypeString, TypeHint(name, ns))]
  {
    if emit == Never then [] else [Attribute(ServerTypeString, TypeHint(name, ns))]
  }

  function WriteTypeInfoStep(emit: EmitTypeInformation, s: Snapshot, c: DataContract, d: DataContract): (st: Step<bool>)
    ensures st.state.scopes == s.scopes
    ensures st.status.Fail? <==> Diverges(emit, c, d) && !RequiresJsonTypeInfo(c) && d.underlyingType == TypeOfEnum
    ensures st.status.Fail? ==> st.state == s && st.status.error == EnumTypeNotSupportedByDataContractJsonSerializer(d.underlyingType)
    ensures st.status.Pass? ==> (st.result <==> Diverges(emit, c, d))
    ensures Diverges(emit, c, d) && RequiresJsonTypeInfo(c) ==>
      st.state == Snapshot(true, s.scopes, s.output + [Attribute(ServerTypeString, TypeHint(c.name, c.ns))])
    ensures !(Diverges(emit, c, d) && RequiresJsonTypeInfo(c)) ==> st.state == s
  {
    if !Diverges(emit, c, d) then
      Step(false, Pass, s)
    else if RequiresJsonTypeInfo(c) then
      Step(true, Pass, s.(alreadyEmitted := true, output := s.output + TypeInfoEvents(emit, c.name, c.ns)))
    else if d.underlyingType == TypeOfEnum then
      Step(false, Fail(EnumTypeNotSupportedByDataContractJsonSerializer(d.underlyingType)), s)
    else
      Step(true, Pass, s)
  }

  /** `WriteDataContractValue`: in `Always` mode a class contract gets its JSON
      type name unless a hint was already emitted for this value; the flag is
      cleared and the value handed to the encoder. */
  function WriteDataContractValueStep(emit: EmitTypeInformation, r: Resolver, s: Snapshot, c: DataContract, obj: Value, declaredType: TypeRef): (t: Snapshot)
    ensures !t.alreadyEmitted && t.scopes == s.scopes
    ensures emit == Always && !s.alreadyEmitted && RequiresJsonTypeInfo(c) ==>
      t.output == s.output + [Attribute(ServerTypeString, r.jsonTypeName(c)), JsonValue(c, obj, declaredType)]
    ensures !(emit == Always && !s.alreadyEmitted && RequiresJsonTypeInfo(c)) ==>
      t.output == s.output + [JsonValue(c, obj, declaredType)]
  {
    var hint := if emit == Always && !s.alreadyEmitted && RequiresJsonTypeInfo(c)
      then [Attribute(ServerTypeString, r.jsonTypeName(c))] else [];
    Snapshot(false, s.scopes, s.output + hint + [JsonValue(c, obj, declaredType)])
  }

  // ---------------------------------------------------------------------
  // Known-type scopes

  /** What `VerifyType` pushes: the contract's known-type map, if non-empty. */
  function PushedScope(c: DataContract): (p: seq<KnownTypes>)
    ensures |p| <= 1
    ensures p == [] <==> |c.knownDataContracts| == 0
    ensures |c.knownDataContracts| > 0 ==> p == [c.knownDataContracts]
  {
    if |c.knownDataContracts| > 0 then [c.knownDataContracts] else []
  }

  function VerifyTypeStep(r: Resolver, s: Snapshot, c: DataContract, declaredType: TypeRef): (st: Step<()>)
    ensures st.state.output == s.output && st.state.alreadyEmitted == s.alreadyEmitted
    ensures st.status.Pass? <==> r.isKnownType(c, declaredType, s.scopes + PushedScope(c))
    ensures st.status.Pass? ==> st.state.scopes == s.scopes
    ensures st.status.Fail? ==>
      st.state.scopes == s.scopes + PushedScope(c) &&
      st.status.error == DcTypeNotFoundOnSerialize(c.underlyingType.fullName, c.name, c.ns)
  {
    var scopes := s.scopes + PushedScope(c);
    if !r.isKnownType(c, declaredType, scopes) then
      Step((), Fail(DcTypeNotFoundOnSerialize(c.underlyingType.fullName, c.name, c.ns)), s.(scopes := scopes))
    else
      Step((), Pass, s)
  }

  // ---------------------------------------------------------------------
  // Copying a dictionary into Dictionary<object, object?>

  predicate HasKey(d: seq<Entry>, k: Value) {
    exists i :: 0 <= i < |d| && d[i].key == k
  }

  /** The entries a `Dictionary<object, object?>` can hold: no null key and no
      key twice. */
  predicate ValidKeys(d: seq<Entry>) {
    (forall i :: 0 <= i < |d| ==> d[i].key != Null) &&
    (forall i, j :: 0 <= i < j < |d| ==> d[i].key != d[j].key)
  }

  /** `Dictionary.Add`: fails on a null key, then on a key already present,
      and otherwise appends the entry. */
  function DictionaryAdd(d: seq<Entry>, e: Entry): Result<seq<Entry>> {
    if e.key == Null then Failure(NullKey)
    else if HasKey(d, e.key) then Failure(DuplicateKey(e.key))
    else Success(d + [e])
  }

  /** Adding the entries of `rest` one by one, in order, to `acc`. */
  function AddEach(acc: seq<Entry>, rest: seq<Entry>): Result<seq<Entry>>
    decreases |rest|
  {
    if rest == [] then Success(acc)
    else match DictionaryAdd(acc, rest[0])
      case Failure(e) => Failure(e)
      case Success(acc') => AddEach(acc', rest[1..])
  }

  /** Entry `j` of `all` is the first one `Add` rejects, and `err` is the
      exception it raises: `NullKey` for a null key, otherwise `DuplicateKey`
      for a key that an earlier entry already holds. */
  predicate FirstRejected(all: seq<Entry>, j: int, err: SerializationError) {
    0 <= j < |all| && ValidKeys(all[..j]) &&
    if all[j].key == Null then err == NullKey
    else HasKey(all[..j], all[j].key) && err == DuplicateKey(all[j].key)
  }

  /** Adding entries one by one succeeds exactly when no key is null and no
      key repeats, and then yields the entries in the order they were added;
      a failure is the exception of the first entry that breaks this. */
  lemma {:induction false} AddEachExact(acc: seq<Entry>, rest: seq<Entry>)
    requires ValidKeys(acc)
    ensures AddEach(acc, rest).Success? <==> ValidKeys(acc + rest)
    ensures AddEach(acc, rest).Success? ==> AddEach(acc, rest).value == acc + rest
    ensures AddEach(acc, rest).Failure? ==>
      exists j :: |acc| <= j < |acc + rest| && FirstRejected(acc + rest, j, AddEach(acc, rest).error)
    decreases |rest|
  {
    if rest == [] {
      assert acc + rest == acc;
    } else {
      var e := rest[0];
      var all := acc + rest;
      assert all[|acc|] == e;
      assert all[..|acc|] == acc;
      if e.key == Null {
        assert FirstRejected(all, |acc|, NullKey);
      } else if HasKey(acc, e.key) {
        var i :| 0 <= i < |acc| && acc[i].key == e.key;
        assert all[i].key == all[|acc|].key;
        assert FirstRejected(all, |acc|, DuplicateKey(e.key));
      } else {
        var acc' := acc + [e];
        assert ValidKeys(acc') by {
          forall i, j | 0 <= i < j < |acc'| ensures acc'[i].key != acc'[j].key {
            if j == |acc| {
              assert acc'[i] == acc[i];
            }
          }
        }
        assert acc' + rest[1..] == all;
        AddEachExact(acc', rest[1..]);
      }
    }
  }

  /** Copying a whole dictionary: the result is exactly its entries, in order,
      or the exception of the first entry `Add` rejects. */
  lemma CopyEntriesExact(entries: seq<Entry>)
    ensures AddEach([], entries).Success? <==> ValidKeys(entries)
    ensures AddEach([], entries).Success? ==> AddEach([], entries).value == entries
    ensures AddEach([], entries).Failure? ==> exists j :: FirstRejected(entries, j, AddEach([], entries).error)
  {
    AddEachExact([], entries);
    assert [] + entries == entries;
  }

  // ---------------------------------------------------------------------
  // Collections written through a weaker slot

  predicate CollectionAssignedToObject(declaredType: TypeRef, c: DataContract) {
    declaredType != c.underlyingType && c.shape.Collection?
  }

  /** The object of a dictionary contract is a dictionary (the contract was
      resolved from the object's own type). */
  predicate ValueFits(c: DataContract, obj: Value) {
    c.shape.Collection? && c.shape.kind == Dictionary ==> obj.DictionaryObject?
  }

  function HandleCollectionAssignedToObjectStep(r: Resolver, s: Snapshot, declaredType: TypeRef, c: DataContract, obj: Value, verify: bool): (st: Step<Handled>)
    requires ValueFits(c, obj)
    ensures st.state.output == s.output && st.state.alreadyEmitted == s.alreadyEmitted
    ensures !CollectionAssignedToObject(declaredType, c) ==> st == Step(Handled(c, obj, verify), Pass, s)
    ensures CollectionAssignedToObject(declaredType, c) && st.status.Pass? ==>
      st.state.scopes == s.scopes &&
      st.result.contract == r.getDataContract(TypeOfIEnumerable) && !st.result.verifyKnownType &&
      (verify ==> r.isKnownType(c, declaredType, s.scopes + PushedScope(c)))
    ensures CollectionAssignedToObject(declaredType, c) && st.status.Pass? && c.shape.kind == Dictionary ==>
      st.result.obj == DictionaryObject(GenericObjectDictionaryType, obj.id, obj.entries)
    ensures CollectionAssignedToObject(declaredType, c) && c.shape.kind != Dictionary ==> st.result.obj == obj
    ensures st.status.Fail? <==>
      CollectionAssignedToObject(declaredType, c) &&
      ((verify && !r.isKnownType(c, declaredType, s.scopes + PushedScope(c))) ||
       (c.shape.kind == Dictionary && !ValidKeys(obj.entries)))
    ensures st.status.Fail? && !(verify && !r.isKnownType(c, declaredType, s.scopes + PushedScope(c))) ==>
      c.shape.Collection? && c.shape.kind == Dictionary &&
      (exists j :: FirstRejected(obj.entries, j, st.status.error)) && st.state == s
  {
    if !CollectionAssignedToObject(declaredType, c) then
      Step(Handled(c, obj, verify), Pass, s)
    else
      var v := if verify then VerifyTypeStep(r, s, c, declaredType) else Step((), Pass, s);
      if v.status.Fail? then
        Step(Handled(c, obj, verify), v.status, v.state)
      else
        var copied := if c.shape.kind == Dictionary then AddEach([], obj.entries) else Success([]);
        CopyEntriesExact(if c.shape.kind == Dictionary then obj.entries else []);
        if copied.Failure? then
          Step(Handled(c, obj, false), Fail(copied.error), v.state)
        else
          var newObj := if c.shape.kind == Dictionary then DictionaryObject(GenericObjectDictionaryType, obj.id, copied.value) else obj;
          Step(Handled(r.getDataContract(TypeOfIEnumerable), newObj, false), Pass, v.state)
  }

  // ---------------------------------------------------------------------
  // Interface compatibility

  /** An XML contract needs an `IXmlSerializable`-compatible interface slot
      and a collection contract a collection-interface slot; other contracts
      are compatible with any interface. */
  function VerifyObjectCompatibilityWithInterface(c: DataContract, declaredType: TypeRef): (r: Outcome)
    ensures r.Pass? <==>
      (c.shape.Xml? ==> declaredType.isXmlSerializable) &&
      (c.shape.Collection? ==> declaredType.isCollectionInterface)
    ensures r.Fail? && c.shape.Xml? ==> r.error == XmlObjectAssignedToIncompatibleInterface(declaredType)
    ensures r.Fail? && c.shape.Collection? ==> r.error == CollectionAssignedToIncompatibleInterface(declaredType)
  {
    if c.shape.Xml? && !declaredType.isXmlSerializable then
      Fail(XmlObjectAssignedToIncompatibleInterface(declaredType))
    else if c.shape.Collection? && !declaredType.isCollectionInterface then
      Fail(CollectionAssignedToIncompatibleInterface(declaredType))
    else
      Pass
  }

  // ---------------------------------------------------------------------
  // Serializing a value with a possible type hint

  /** Declared interface slots representing any collection, and array slots,
      get no container-level hint. */
  predicate SkipsContainerTypeInfo(declaredType: TypeRef): (b: bool)
    ensures declaredType.isArray ==> b
    ensures b && !declaredType.isArray ==> declaredType.isInterface && declaredType.isCollectionInterface
  {
    (declaredType.isInterface && declaredType.isCollectionInterface) || declaredType.isArray
  }

  /** The type-hint decision followed by collection normalisation, shared by
      the nested and the top-level entry points. */
  function TypeInfoAndCollectionStep(r: Resolver, emit: EmitTypeInformation, s: Snapshot, c: DataContract, declaredContract: DataContract, declaredType: TypeRef, obj: Value): (st: Step<Handled>)
    requires ValueFits(c, obj)
    ensures var w := WriteTypeInfoStep(emit, s, c, declaredContract);
      st.state.output == w.state.output && st.state.alreadyEmitted == w.state.alreadyEmitted
    ensures var w := WriteTypeInfoStep(emit, s, c, declaredContract);
      w.status.Fail? ==> st.status == w.status && st.state == s
    ensures st.status.Pass? ==> st.state.scopes == s.scopes
    ensures st.status.Fail? ==> st.state.scopes == s.scopes || st.state.scopes == s.scopes + PushedScope(c)
    ensures var w := WriteTypeInfoStep(emit, s, c, declaredContract);
      !CollectionAssignedToObject(declaredType, c) ==>
        st.status == w.status && st.result.contract == c && st.result.obj == obj &&
        (w.status.Pass? ==> st.result.verifyKnownType == w.result)
  {
    var w := WriteTypeInfoStep(emit, s, c, declaredContract);
    if w.status.Fail? then Step(Handled(c, obj, false), w.status, w.state)
    else HandleCollectionAssignedToObjectStep(r, w.state, declaredType, c, obj, w.result)
  }

  /** The interface check and the hand-off to `SerializeAndVerifyType`. */
  function SerializeAndVerifyStep(s: Snapshot, h: Handled, declaredType: TypeRef): (st: Step<Handled>)
    ensures st.state.scopes == s.scopes && st.state.alreadyEmitted == s.alreadyEmitted && st.result == h
    ensures st.status.Fail? ==> st.state == s
    ensures st.status.Pass? ==> st.state.output == s.output + [SerializeAndVerifyType(h.contract, h.obj, h.verifyKnownType, declaredType)]
    ensures st.status.Fail? <==> declaredType.isInterface && VerifyObjectCompatibilityWithInterface(h.contract, declaredType).Fail?
  {
    if declaredType.isInterface && VerifyObjectCompatibilityWithInterface(h.contract, declaredType).Fail? then
      Step(h, VerifyObjectCompatibilityWithInterface(h.contract, declaredType), s)
    else
      Step(h, Pass, s.(output := s.output + [SerializeAndVerifyType(h.contract, h.obj, h.verifyKnownType, declaredType)]))
  }

  /** A nested write. On success the scope stack is as before and the log ends
      with the hand-off; on failure nothing was written, the flag is as before,
      and the only trace is a known-type map left pushed by a failed check. */
  function SerializeWithXsiTypeStep(r: Resolver, emit: EmitTypeInformation, s: Snapshot, obj: Value, objectType: TypeRef, declaredType: TypeRef): (st: Step<Handled>)
    requires ValueFits(r.getDataContract(objectType), obj)
    ensures st.status.Pass? ==> st.state.scopes == s.scopes
    ensures st.status.Pass? ==>
      |st.state.output| > |s.output| &&
      st.state.output[|st.state.output| - 1] == SerializeAndVerifyType(st.result.contract, st.result.obj, st.result.verifyKnownType, declaredType)
    ensures st.status.Fail? ==> st.state.output == s.output && st.state.alreadyEmitted == s.alreadyEmitted
    ensures st.status.Fail? ==> st.state.scopes == s.scopes || st.state.scopes == s.scopes + PushedScope(r.getDataContract(objectType))
  {
    if SkipsContainerTypeInfo(declaredType) then
      SerializeAndVerifyStep(s, Handled(r.getDataContract(declaredType), obj, false), declaredType)
    else
      var t := TypeInfoAndCollectionStep(r, emit, s, r.getDataContract(objectType), r.getDataContract(declaredType), declaredType, obj);
      if t.status.Fail? then t else SerializeAndVerifyStep(t.state, t.result, declaredType)
  }

  /** The root write, with the root contract as the slot: the same guarantees
      as a nested write. */
  function SerializeWithXsiTypeAtTopLevelStep(r: Resolver, emit: EmitTypeInformation, root: DataContract, s: Snapshot, c: DataContract, obj: Value): (st: Step<Handled>)
    requires ValueFits(c, obj)
    ensures st.status.Pass? ==> st.state.scopes == s.scopes
    ensures st.status.Pass? ==>
      |st.state.output| > |s.output| &&
      st.state.output[|st.state.output| - 1] == SerializeAndVerifyType(st.result.contract, st.result.obj, st.result.verifyKnownType, root.underlyingType)
    ensures st.status.Fail? ==> st.state.output == s.output && st.state.alreadyEmitted == s.alreadyEmitted
    ensures st.status.Fail? ==> st.state.scopes == s.scopes || st.state.scopes == s.scopes + PushedScope(c)
  {
    var declaredType := root.underlyingType;
    if !SkipsContainerTypeInfo(declaredType) then
      var t := TypeInfoAndCollectionStep(r, emit, s, c, root, declaredType, obj);
      if t.status.Fail? then t else SerializeAndVerifyStep(t.state, t.result, declaredType)
    else
      SerializeAndVerifyStep(s, Handled(c, obj, false), declaredType)
  }

  // ---------------------------------------------------------------------
  // Extension data and ISerializable objects

  /** The `ExtensionDataTypeInfo` event stands for the base class's
      `WriteExtensionDataTypeInfo`, which is not part of this model. That call
      may itself write a `__type` attribute through `WriteTypeInfo(writer,
      name, namespace)`; the hint count below covers only what this override
      writes directly, not what that event goes on to write. */
  function WriteExtensionDataTypeInfoStep(r: Resolver, s: Snapshot, node: DataNode): (t: Snapshot)
    ensures t.alreadyEmitted == s.alreadyEmitted && t.scopes == s.scopes
    ensures Hints(t.output) == Hints(s.output)
    ensures node.dataType in {ClassDataNode, ISerializableDataNode} ==>
      t.output == s.output + [Attribute(TypeString, ObjectString), ExtensionDataTypeInfo(node)]
    ensures node.dataType == CollectionDataNode ==> t.output == s.output + [Attribute(TypeString, ArrayString)]
    ensures node.dataType in {XmlDataNode, OtherDataNode} ==> t.output == s.output
    ensures node.dataType == ObjectDataNode ==>
      t.output == s.output + (if node.value != Null && RequiresJsonTypeInfo(r.getDataContract(node.valueType)) then [ExtensionDataTypeInfo(node)] else [])
  {
    var added := match node.dataType
      case ClassDataNode => [Attribute(TypeString, ObjectString), ExtensionDataTypeInfo(node)]
      case ISerializableDataNode => [Attribute(TypeString, ObjectString), ExtensionDataTypeInfo(node)]
      case CollectionDataNode => [Attribute(TypeString, ArrayString)]
      case XmlDataNode => []
      case ObjectDataNode =>
        if node.value != Null && RequiresJsonTypeInfo(r.getDataContract(node.valueType)) then [ExtensionDataTypeInfo(node)] else []
      case OtherDataNode => [];
    assert Hints(added) == 0 by {
      if |added| == 2 {
        assert added[..1] == [added[0]];
        assert Hints(added[..1]) == Hints(added[..0]);
      } else if |added| == 1 {
        assert added[..0] == [];
      }
    }
    HintsAppend(s.output, added);
    s.(output := s.output + added)
  }

  /** `WriteJsonISerializable`: the bag must report the object's own full type
      name; only then is it written. */
  function WriteJsonISerializableStep(s: Snapshot, objType: TypeRef, info: SerializationInfo): (st: Step<()>)
    ensures st.status.Pass? <==> info.fullTypeName == objType.fullName
    ensures st.status.Fail? ==> st.state == s && st.status.error == ChangingFullTypeNameNotSupported(info.fullTypeName, objType.fullName)
    ensures st.status.Pass? ==> st.state == s.(output := s.output + [SerializationInfoWritten(objType, info)])
  {
    if objType.fullName != info.fullTypeName then
      Step((), Fail(ChangingFullTypeNameNotSupported(info.fullTypeName, objType.fullName)), s)
    else
      Step((), Pass, s.(output := s.output + [SerializationInfoWritten(objType, info)]))
  }

  // ---------------------------------------------------------------------
  // Whole writes: a value through its slot, then its payload

  /** Every `__type` attribute a write step adds is remembered by the flag. */
  predicate HintAccounted(s: Snapshot, t: Snapshot) {
    Hints(t.output) <= Hints(s.output) + (if t.alreadyEmitted then 1 else 0)
  }

  lemma TypeInfoAndCollectionHints(r: Resolver, emit: EmitTypeInformation, s: Snapshot, c: DataContract, declaredContract: DataContract, declaredType: TypeRef, obj: Value)
    requires ValueFits(c, obj)
    ensures var t := TypeInfoAndCollectionStep(r, emit, s, c, declaredContract, declaredType, obj);
      t.status.Pass? ==>
        HintAccounted(s, t.state) &&
        (!(Diverges(emit, c, declaredContract) && RequiresJsonTypeInfo(c)) ==>
           t.state.output == s.output && t.state.alreadyEmitted == s.alreadyEmitted) &&
        (Diverges(emit, c, declaredContract) && RequiresJsonTypeInfo(c) ==>
           t.state.output == s.output + [Attribute(ServerTypeString, TypeHint(c.name, c.ns))] && t.state.alreadyEmitted)
  {
    var w := WriteTypeInfoStep(emit, s, c, declaredContract);
    if Diverges(emit, c, declaredContract) && RequiresJsonTypeInfo(c) {
      HintsSnoc(s.output, Attribute(ServerTypeString, TypeHint(c.name, c.ns)));
    }
  }

  /** Whatever path a value takes to the encoder, it carries at most one
      `__type` attribute: the slot-level hint sets the flag that suppresses
      the payload-level one. */
  lemma AtMostOneHintPerValue(r: Resolver, emit: EmitTypeInformation, s: Snapshot, obj: Value, objectType: TypeRef, declaredType: TypeRef)
    requires ValueFits(r.getDataContract(objectType), obj)
    ensures var st := SerializeWithXsiTypeStep(r, emit, s, obj, objectType, declaredType);
      st.status.Pass? ==>
        Hints(WriteDataContractValueStep(emit, r, st.state, st.result.contract, st.result.obj, declaredType).output) <= Hints(s.output) + 1
  {
    var st := SerializeWithXsiTypeStep(r, emit, s, obj, objectType, declaredType);
    if st.status.Pass? {
      var ev := SerializeAndVerifyType(st.result.contract, st.result.obj, st.result.verifyKnownType, declaredType);
      if SkipsContainerTypeInfo(declaredType) {
        HintsSnoc(s.output, ev);
      } else {
        var t := TypeInfoAndCollectionStep(r, emit, s, r.getDataContract(objectType), r.getDataContract(declaredType), declaredType, obj);
        TypeInfoAndCollectionHints(r, emit, s, r.getDataContract(objectType), r.getDataContract(declaredType), declaredType, obj);
        HintsSnoc(t.state.output, ev);
      }
      assert HintAccounted(s, st.state);
      PayloadHints(emit, r, st.state, st.result.contract, st.result.obj, declaredType);
    }
  }

  lemma TopLevelAtMostOneHintPerValue(r: Resolver, emit: EmitTypeInformation, root: DataContract, s: Snapshot, c: DataContract, obj: Value)
    requires ValueFits(c, obj)
    ensures var st := SerializeWithXsiTypeAtTopLevelStep(r, emit, root, s, c, obj);
      st.status.Pass? ==>
        Hints(WriteDataContractValueStep(emit, r, st.state, st.result.contract, st.result.obj, root.underlyingType).output) <= Hints(s.output) + 1
  {
    var st := SerializeWithXsiTypeAtTopLevelStep(r, emit, root, s, c, obj);
    var declaredType := root.underlyingType;
    if st.status.Pass? {
      var ev := SerializeAndVerifyType(st.result.contract, st.result.obj, st.result.verifyKnownType, declaredType);
      if SkipsContainerTypeInfo(declaredType) {
        HintsSnoc(s.output, ev);
      } else {
        var t := TypeInfoAndCollectionStep(r, emit, s, c, root, declaredType, obj);
        TypeInfoAndCollectionHints(r, emit, s, c, root, declaredType, obj);
        HintsSnoc(t.state.output, ev);
      }
      assert HintAccounted(s, st.state);
      PayloadHints(emit, r, st.state, st.result.contract, st.result.obj, declaredType);
    }
  }

  /** The payload step adds a hint only when none is recorded for the value. */
  lemma PayloadHints(emit: EmitTypeInformation, r: Resolver, s: Snapshot, c: DataContract, obj: Value, declaredType: TypeRef)
    ensures var t := WriteDataContractValueStep(emit, r, s, c, obj, declaredType);
      Hints(t.output) == Hints(s.output) + (if emit == Always && !s.alreadyEmitted && RequiresJsonTypeInfo(c) then 1 else 0)
  {
    var t := WriteDataContractValueStep(emit, r, s, c, obj, declaredType);
    var v := JsonValue(c, obj, declaredType);
    if emit == Always && !s.alreadyEmitted && RequiresJsonTypeInfo(c) {
      var h := Attribute(ServerTypeString, r.jsonTypeName(c));
      HintsSnoc(s.output, h);
      assert t.output == (s.output + [h]) + [v];
      HintsSnoc(s.output + [h], v);
    } else {
      HintsSnoc(s.output, v);
    }
  }

  /** In `Always` mode a class-contract value carries exactly one `__type`
      attribute, whether or not it diverges from its slot. */
  lemma AlwaysModeExactlyOneHint(r: Resolver, s: Snapshot, obj: Value, objectType: TypeRef, declaredType: TypeRef)
    requires !s.alreadyEmitted
    requires r.getDataContract(objectType).shape.Class?
    requires !SkipsContainerTypeInfo(declaredType)
    ensures var st := SerializeWithXsiTypeStep(r, Always, s, obj, objectType, declaredType);
      st.status.Pass? &&
        Hints(WriteDataContractValueStep(Always, r, st.state, st.result.contract, st.result.obj, declaredType).output) == Hints(s.output) + 1
  {
    var c := r.getDataContract(objectType);
    var d := r.getDataContract(declaredType);
    var st := SerializeWithXsiTypeStep(r, Always, s, obj, objectType, declaredType);
    if st.status.Pass? {
      var t := TypeInfoAndCollectionStep(r, Always, s, c, d, declaredType, obj);
      TypeInfoAndCollectionHints(r, Always, s, c, d, declaredType, obj);
      var ev := SerializeAndVerifyType(st.result.contract, st.result.obj, st.result.verifyKnownType, declaredType);
      HintsSnoc(t.state.output, ev);
      if Diverges(Always, c, d) {
        HintsSnoc(s.output, Attribute(ServerTypeString, TypeHint(c.name, c.ns)));
      }
      PayloadHints(Always, r, st.state, st.result.contract, st.result.obj, declaredType);
    }
  }

  /** In `Never` mode no `__type` attribute is written for a value. */
  lemma NeverModeWritesNoHint(r: Resolver, s: Snapshot, obj: Value, objectType: TypeRef, declaredType: TypeRef)
    requires ValueFits(r.getDataContract(objectType), obj)
    ensures var st := SerializeWithXsiTypeStep(r, Never, s, obj, objectType, declaredType);
      Hints(WriteDataContractValueStep(Never, r, st.state, st.result.contract, st.result.obj, declaredType).output) == Hints(s.output)
  {
    var st := SerializeWithXsiTypeStep(r, Never, s, obj, objectType, declaredType);
    if st.status.Pass? {
      var ev := SerializeAndVerifyType(st.result.contract, st.result.obj, st.result.verifyKnownType, declaredType);
      if SkipsContainerTypeInfo(declaredType) {
        HintsSnoc(s.output, ev);
      } else {
        var t := TypeInfoAndCollectionStep(r, Never, s, r.getDataContract(objectType), r.getDataContract(declaredType), declaredType, obj);
        HintsSnoc(t.state.output, ev);
      }
    }
    PayloadHints(Never, r, st.state, st.result.contract, st.result.obj, declaredType);
  }

  /** A value whose contract has the identity of its slot's contract gets no
      slot-level hint. */
  lemma SameIdentityWritesNoHint(r: Resolver, emit: EmitTypeInformation, s: Snapshot, obj: Value, objectType: TypeRef, declaredType: TypeRef)
    requires ValueFits(r.getDataContract(objectType), obj)
    requires SameIdentity(r.getDataContract(objectType), r.getDataContract(declaredType))
    ensures var st := SerializeWithXsiTypeStep(r, emit, s, obj, objectType, declaredType);
      Hints(st.state.output) == Hints(s.output) && st.state.alreadyEmitted == s.alreadyEmitted
  {
    var st := SerializeWithXsiTypeStep(r, emit, s, obj, objectType, declaredType);
    if st.status.Pass? {
      var ev := SerializeAndVerifyType(st.result.contract, st.result.obj, st.result.verifyKnownType, declaredType);
      if SkipsContainerTypeInfo(declaredType) {
        HintsSnoc(s.output, ev);
      } else {
        var t := TypeInfoAndCollectionStep(r, emit, s, r.getDataContract(objectType), r.getDataContract(declaredType), declaredType, obj);
        HintsSnoc(t.state.output, ev);
      }
    }
  }

  /** Array slots and collection-interface slots: the contract of the slot is
      used as is, with no hint and no known-type verification; only an array
      slot is certain to pass. */
  lemma ContainerSlotGetsNoHint(r: Resolver, emit: EmitTypeInformation, s: Snapshot, obj: Value, objectType: TypeRef, declaredType: TypeRef)
    requires ValueFits(r.getDataContract(objectType), obj)
    requires SkipsContainerTypeInfo(declaredType)
    ensures var st := SerializeWithXsiTypeStep(r, emit, s, obj, objectType, declaredType);
      (st.status.Pass? ==> st.state.output == s.output + [SerializeAndVerifyType(r.getDataContract(declaredType), obj, false, declaredType)]) &&
      (st.status.Fail? ==> st.state == s) &&
      (declaredType.isArray && !declaredType.isInterface ==> st.status.Pass?)
  {
  }

  /** A class contract diverging from its slot: its compact hint is written, the flag is set, and
      the known-type check is handed on by `verifyKnownType`. */
  lemma ClassDivergenceWritesHint(r: Resolver, emit: EmitTypeInformation, s: Snapshot, obj: Value, objectType: TypeRef, declaredType: TypeRef)
    requires r.getDataContract(objectType).shape.Class?
    requires Diverges(emit, r.getDataContract(objectType), r.getDataContract(declaredType))
    requires !SkipsContainerTypeInfo(declaredType)
    ensures var c := r.getDataContract(objectType);
      var st := SerializeWithXsiTypeStep(r, emit, s, obj, objectType, declaredType);
      st.status.Pass? && st.state.alreadyEmitted && st.state.scopes == s.scopes &&
      st.state.output == s.output + [Attribute(ServerTypeString, TypeHint(c.name, c.ns)), SerializeAndVerifyType(c, obj, true, declaredType)]
  {
  }

  /** A non-class contract diverging under a `System.Enum` slot is rejected
      before anything is written. */
  lemma EnumSlotRejectsDivergence(r: Resolver, emit: EmitTypeInformation, s: Snapshot, obj: Value, objectType: TypeRef, declaredType: TypeRef)
    requires ValueFits(r.getDataContract(objectType), obj)
    requires !r.getDataContract(objectType).shape.Class?
    requires Diverges(emit, r.getDataContract(objectType), r.getDataContract(declaredType))
    requires r.getDataContract(declaredType).underlyingType == TypeOfEnum
    requires !SkipsContainerTypeInfo(declaredType)
    ensures var st := SerializeWithXsiTypeStep(r, emit, s, obj, objectType, declaredType);
      st.status == Fail(EnumTypeNotSupportedByDataContractJsonSerializer(TypeOfEnum)) && st.state == s
  {
  }

  /** A dictionary written through a slot of another type reaches the encoder
      as a `Dictionary<object, object?>` holding the same entries in the same
      order, under the `IEnumerable` contract, with no hint. */
  lemma DictionaryThroughWeakerSlotIsNormalized(r: Resolver, emit: EmitTypeInformation, s: Snapshot, typeName: string, id: nat, entries: seq<Entry>, objectType: TypeRef, declaredType: TypeRef)
    requires r.getDataContract(objectType).shape.Collection? && r.getDataContract(objectType).shape.kind == Dictionary
    requires declaredType != r.getDataContract(objectType).underlyingType
    requires !SkipsContainerTypeInfo(declaredType)
    requires ValidKeys(entries)
    ensures var st := SerializeWithXsiTypeStep(r, emit, s, DictionaryObject(typeName, id, entries), objectType, declaredType);
      st.status.Pass? ==>
        st.state.output == s.output + [SerializeAndVerifyType(r.getDataContract(TypeOfIEnumerable), DictionaryObject(GenericObjectDictionaryType, id, entries), false, declaredType)]
  {
  }

  /** A collection diverging from a slot of another type must be a known type
      in the scope extended by its own known types; otherwise the write fails
      with the push still in place. */
  lemma CollectionThroughWeakerSlotMustBeKnown(r: Resolver, emit: EmitTypeInformation, s: Snapshot, obj: Value, objectType: TypeRef, declaredType: TypeRef)
    requires ValueFits(r.getDataContract(objectType), obj)
    requires r.getDataContract(objectType).shape.Collection?
    requires Diverges(emit, r.getDataContract(objectType), r.getDataContract(declaredType))
    requires r.getDataContract(declaredType).underlyingType != TypeOfEnum
    requires declaredType != r.getDataContract(objectType).underlyingType
    requires !SkipsContainerTypeInfo(declaredType)
    ensures var c := r.getDataContract(objectType);
      var st := SerializeWithXsiTypeStep(r, emit, s, obj, objectType, declaredType);
      var known := r.isKnownType(c, declaredType, s.scopes + PushedScope(c));
      (st.status.Pass? ==> known && st.state.scopes == s.scopes) &&
      (!known ==> st.status == Fail(DcTypeNotFoundOnSerialize(c.underlyingType.fullName, c.name, c.ns)) &&
                  st.state.scopes == s.scopes + PushedScope(c) && st.state.output == s.output)
  {
  }
}
